=== FILE: README.md ===
# gcfix security checksum, modelled in Dafny

`gcfix` checks and repairs the header of a Tiger game.com ROM image.

`securityCheck` finds the 32-byte `romHeader`. It sits at 0x40000 when byte 0
of the image is 0x00 or 0xFF, otherwise at 0. The function rejects the image
unless all of the following hold:

- `(gameId[0] + gameId[1]) ^ 0xA5` equals `securityCode`;
- the nine `system` bytes are "TigerDMGC";
- the three bytes named by row `securityCode & 0xF` of a constant 16×3 table
  of (bank, address) triples add up to 0x5A in an 8-bit accumulator.

`securityFix` refuses images shorter than 32 KiB. Otherwise it searches the
table rows in ascending order for the first whose three bytes already add up to
0x5A. On an image of exactly 32 KiB it skips rows 3 and 6. It then rewrites
`gameId` and `securityCode` so that they select that row.

The image is a `seq<byte>`, with bytes as integers in [0, 256). The modules
follow the source:

- `Bytes`: C's `^` and `&` on non-negative integers.
- `Table`: the constant table and the offset arithmetic.
- `Header`: decoding and writing the header fields at explicit byte offsets,
  and `strncmp`.
- `Checksum`: the three-byte sum with its wrap-around.
- `SecurityCheck`: `securityCheck` as a predicate.
- `SecurityFix`: `securityFix` as a function that returns the repaired image
  or the reason it gave up.
- `RoundTrip`: how the two functions fit together.

The C code reads the image without bounds checks. Each read it makes is a
precondition instead:

- `CheckReadable` covers the reads of `securityCheck`: byte 0, the header
  fields, and the three checksum bytes. The checksum bytes are required only
  when the field tests pass, because only then does the C read them.
- `FixReadable` covers the reads of `securityFix`: each row the search reads
  before it stops.

Two points of the C are modelled as the compiler reads them:

- **The `unk` test never rejects.** The comment at gcfix.c:68 says the bottom
  bit of `unk` must be set. But `hdr->unk & 1 == 0` parses as
  `hdr->unk & (1 == 0)`, which is always 0, so the test never fails.
  `UnkRejects` computes the mask as C does, and `UnkNeverRejects` and
  `CheckIgnoresUnk` state the consequence.
- **The game-ID sum is not reduced to 8 bits.** `gameId[0] + gameId[1]` is
  promoted to `int` before the exclusive-or. Any pair summing past 255
  therefore fails the test.

## Model

| member | source | states |
|---|---|---|
| `Table.SecurityTable` | gcfix.c:27-45 | the 16 rows of three (bank, address-high, address-low) entries, byte for byte as in `securityTable`; characterized by EntryOffsetInRange, OffsetRangeIsTight and RowReachesPastMinimum |
| `Table.Offset` | gcfix.c:78 | `bank * 0x2000 + Address(hi, lo) - 0x6000` in unbounded integers; ShiftOrIsConcatenation ties the address to the bitwise form and EntryOffsetInRange shows the `uint32_t` store is exact |
| `Table.Address` | gcfix.c:78 | the 16-bit load address formed by or-ing `hi << 8` with `lo`, as the integer `hi * 256 + lo`; ShiftOrIsConcatenation shows the two agree for every pair of bytes |
| `Table.ShiftOrIsConcatenation` | gcfix.c:78 | the integer address used by the model equals the bitwise or of `hi << 8` and `lo` on 16-bit values |
| `Table.EntryOffsetInRange` | gcfix.c:27-45 | every table entry designates an offset in [0x245, 0x8B6F]; offsets are never negative, so the `uint32_t` store is exact, and none falls inside the 0x20-byte header |
| `Table.OffsetRangeIsTight` | gcfix.c:35 | row 6 attains both bounds of that range |
| `Table.RowReachesPastMinimum` | gcfix.c:112-117 | rows 3 and 6 are exactly the rows that read at or beyond offset 0x8000, which are the rows skipped on a 32 KiB image |
| `Bytes.Xor` | gcfix.c:61 | C's `^` on non-negative integers, bit by bit from the least significant, as used here and in the store at gcfix.c:143; characterized by XorSelfInverse, XorBelow and XorKeepsHighBits |
| `Bytes.And` | gcfix.c:73 | C's `&` on non-negative integers, bit by bit from the least significant, as used here and in the `unk` test at gcfix.c:69; characterized by AndLowMask |
| `Bytes.AndLowMask` | gcfix.c:73 | masking with 2^p - 1 is the remainder by 2^p, so `securityCode & 0xf` selects row `securityCode mod 16` |
| `Bytes.XorSelfInverse` | gcfix.c:143 | exclusive-or with the same key twice gives back the original value |
| `Bytes.XorKeepsHighBits` | gcfix.c:61 | exclusive-or with a key below 2^p keeps a value of at least 2^p at least 2^p |
| `Bytes.XorBelow` | gcfix.c:143 | exclusive-or of two values below 2^p stays below 2^p |
| `Header.Decode` | gcfix.c:10-24 | reads `unk`, the nine `system` bytes, `gameId` and `securityCode` at their struct offsets from the header base, in place of the cast at gcfix.c:58; characterized by DecodeReadsOnlyFields and the decode clause of WriteIds |
| `Header.DecodeReadsOnlyFields` | gcfix.c:10-24 | the decoded fields depend only on header+0x04 through header+0x1C: images that agree there decode to the same header |
| `Header.WriteIds` | gcfix.c:143-145 | storing the two game-ID bytes and the code keeps the length, changes no byte outside header+0x1A..0x1C, and decodes to the old header with exactly those three fields replaced |
| `Header.WriteIdsOfPresentValues` | gcfix.c:143-145 | writing the values a header already holds leaves the image unchanged |
| `Header.StrNCmp` | gcfix.c:65 | C `strncmp` on bytes: zero on n equal bytes or equal bytes up to a shared NUL, otherwise the difference of the first differing pair; characterized by StrNCmpIsExactMatch |
| `Header.StrNCmpIsExactMatch` | gcfix.c:65 | when the second string has no NUL in its first n bytes, `strncmp` over n bytes is zero exactly when those n bytes are equal |
| `Header.SystemTagIsTigerDMGC` | gcfix.c:65 | the marker is the nine characters "TigerDMGC" and contains no NUL |
| `Checksum.ByteAt` | gcfix.c:78-79 | the image byte `rom[offset]` that entry `j` of row `i` designates, at the header base plus the entry's offset; only defined when the row is in bounds, and RowInBoundsCoversEntries puts all three entries there |
| `Checksum.Accumulate` | gcfix.c:76-81 | the three-step checksum loop from entry `j` on, adding each designated byte to a `uint8_t` accumulator that wraps at 256; the same loop appears at gcfix.c:121-126; characterized by RowSumWraps |
| `Checksum.RowSum` | gcfix.c:121-126 | the accumulator after the whole loop over one row, starting from 0, shared by both functions; characterized by RowSumWraps and RowSumReadsOnlyTableBytes |
| `Checksum.RowInBoundsCoversEntries` | gcfix.c:78-79 | a row whose farthest byte is inside the image has all three bytes inside the image, and past the header |
| `Checksum.RowSumWraps` | gcfix.c:76-84 | the 8-bit accumulator ends up holding the integer sum of the three designated bytes modulo 256 |
| `Checksum.RowSumReadsOnlyTableBytes` | gcfix.c:76-81 | the checksum of a row depends only on the bytes from header+0x245 on |
| `SecurityCheck.HeaderBase` | gcfix.c:55-56 | securityCheck's header base: 0x40000 when byte 0 is 0x00 or 0xFF, otherwise 0; compared with securityFix's rule by BasesAgree |
| `SecurityCheck.GameIdMatches` | gcfix.c:61 | the game-ID test with the sum promoted to `int` before the exclusive-or; characterized by GameIdRelation |
| `SecurityCheck.UnkRejects` | gcfix.c:69 | the `unk` test as C parses it, masking with the value of `1 == 0`; characterized by UnkNeverRejects |
| `SecurityCheck.SystemMatches` | gcfix.c:65 | the marker test `strncmp(system, "TigerDMGC", 9) == 0`, through StrNCmp; characterized by SystemMatchIsExact |
| `SecurityCheck.SelectedRow` | gcfix.c:73 | the row `securityCode & 0xf` selects; characterized by SelectedRowIsCodeMod16 |
| `SecurityCheck.CheckReadable` | gcfix.c:55-79 | what securityCheck needs to read only inside the image: byte 0, the header fields at the chosen base, and, only when the three field tests pass, the three bytes of the selected row; the C reads without checking, and CheckIgnoresUnk and RepairedPassesCheck show which images meet it |
| `SecurityCheck.Check` | gcfix.c:47-85 | the three field tests in source order, each rejecting on failure, then the row sum of row `securityCode & 0xf` against 0x5A; characterized by CheckAcceptsExactly |
| `SecurityCheck.SelectedRowIsCodeMod16` | gcfix.c:73 | the selected row is the security code modulo 16 |
| `SecurityCheck.GameIdRelation` | gcfix.c:61-62 | the game-ID test passes exactly when the unreduced sum is at most 255 and the code is that sum exclusive-or 0xA5 |
| `SecurityCheck.SystemMatchIsExact` | gcfix.c:65-66 | the marker test passes exactly when the nine bytes at header+0x05 are "TigerDMGC" |
| `SecurityCheck.UnkNeverRejects` | gcfix.c:68-70 | the `unk` test rejects no header |
| `SecurityCheck.FieldsPassIffValid` | gcfix.c:60-70 | the three field tests all pass exactly for a header that is valid as stated directly |
| `SecurityCheck.CheckAcceptsExactly` | gcfix.c:47-85 | securityCheck accepts exactly when the header at the chosen base is valid, row `code mod 16` is in bounds, and its three bytes sum to 0x5A modulo 256 |
| `SecurityCheck.CheckRejectsGameIdOverflow` | gcfix.c:61-62 | a game-ID pair summing past 255 is always rejected |
| `SecurityCheck.CheckIgnoresUnk` | gcfix.c:68-70 | overwriting the `unk` byte changes neither readability nor the verdict |
| `SecurityFix.FixBase` | gcfix.c:102-103 | securityFix's header base: 0x40000 when byte 0 is 0x00 or 0xFF and the image is longer than 32 KiB, otherwise 0; characterized by ExactMinimumUsesPrimaryHeader and BasesAgree |
| `SecurityFix.Skipped` | gcfix.c:112-116 | the rows a 32 KiB image never evaluates: 3 and 6, and none on any other length; VisitsAreUnskippedRows shows these are exactly the rows missing from the loop, and RowReachesPastMinimum that they are exactly the rows reading at or past 0x8000 |
| `SecurityFix.FixReadable` | gcfix.c:102-126 | what securityFix needs to read only inside the image once its size check passes: the three bytes of every row the search evaluates up to and including the first match; the C reads without checking, and ExactMinimumIsReadable and LargeImageIsReadable give the images that meet it |
| `SecurityFix.Visits` | gcfix.c:108-117 | the rows the search loop evaluates, in order, with the extra `i++` that steps over row 3 or 6 on a 32 KiB image; characterized by VisitsAreUnskippedRows |
| `SecurityFix.FirstMatch` | gcfix.c:108-134 | the search with its `break` returns a matching row of the visit order, with every earlier row read and rejected; or it returns nothing, with every row read and rejected |
| `SecurityFix.VisitsAreUnskippedRows` | gcfix.c:108-117 | the loop evaluates, in strictly ascending order and hence each once, exactly the rows from its start that are not skipped |
| `SecurityFix.SearchFindsLowest` | gcfix.c:108-134 | the search over the loop's visit order yields the lowest evaluated matching row, or shows that no evaluated row matches |
| `SecurityFix.GameIdFor` | gcfix.c:143 | the byte stored for `gameId[0]`: `match ^ 0xa5` truncated to `uint8_t`; characterized by GameIdForFits |
| `SecurityFix.GameIdForFits` | gcfix.c:143 | the byte stored for `gameId[0]` is `match ^ 0xA5` itself; the `uint8_t` truncation never bites |
| `SecurityFix.WritingMatchRepairs` | gcfix.c:143-145 | writing `match ^ 0xA5`, 0 and `match` for the lowest match produces an image that is repaired |
| `SecurityFix.Fix` | gcfix.c:87-148 | it refuses exactly the images under 32 KiB and fails to match exactly when no evaluated row sums to 0x5A; on success it changes only header+0x1A..0x1C, to `match ^ 0xA5`, 0 and the lowest evaluated matching row |
| `SecurityFix.RowInBoundsCoversHeader` | gcfix.c:143-145 | a row in bounds implies that the header fields securityFix writes are in bounds |
| `SecurityFix.ScanSafeWhenRowsInBounds` | gcfix.c:119-126 | a search over rows that are all in bounds reads only bytes inside the image |
| `SecurityFix.ExactMinimumIsReadable` | gcfix.c:112-117 | every 32 KiB image is safe to search, because the skipped rows are the only ones that read past 0x8000 |
| `SecurityFix.LargeImageIsReadable` | gcfix.c:119-126 | an image that extends past header+0x8B6F is safe to search |
| `SecurityFix.ExactMinimumUsesPrimaryHeader` | gcfix.c:102-103 | securityFix reads the header at 0 on an image of exactly 32 KiB, whatever byte 0 holds |
| `RoundTrip.BasesAgree` | gcfix.c:102-103 | the two functions choose the same header base exactly when the image is longer than 32 KiB or byte 0 is neither 0x00 nor 0xFF |
| `RoundTrip.SearchReadsOnlyTableBytes` | gcfix.c:108-134 | images that agree from header+0x245 on are equally safe to search and give the same first match |
| `RoundTrip.RepairedAgreesPastHeader` | gcfix.c:143-145 | a repaired image keeps byte 0 and every byte from header+0x245 on |
| `RoundTrip.RepairedPassesCheck` | gcfix.c:143-145 | a repaired image whose marker reads "TigerDMGC" passes securityCheck when securityCheck finds the header at the same base |
| `RoundTrip.FixThenCheck` | gcfix.c:87-148 | when securityFix succeeds, the marker is "TigerDMGC", and both functions use the same base, securityCheck accepts the result |
| `RoundTrip.LowestMatchIsUnique` | gcfix.c:129-133 | there is at most one lowest evaluated matching row |
| `RoundTrip.LowestMatchReadsOnlyTableBytes` | gcfix.c:121-133 | the lowest matching row is the same for images that agree from header+0x245 on |
| `RoundTrip.RepairedIsUnique` | gcfix.c:143-145 | a repaired image is determined by the original image, so securityFix has only one possible result |
| `RoundTrip.FixIsIdempotent` | gcfix.c:87-148 | running securityFix on its own output succeeds and returns that output unchanged |
| `RoundTrip.CheckedImageIsFixable` | gcfix.c:112-117 | on a 32 KiB image the row an accepted header selects is never 3 or 6, so the skip cannot hide it; and an image of at least 32 KiB that securityCheck accepts, whose search is readable, can be repaired when both functions use the same base |
| `RoundTrip.FixThenCheckApplies` | gcfix.c:87-148 | a concrete 36 KiB image meets every hypothesis of the fix-then-check and idempotence lemmas: securityFix repairs it to select row 0, and the result passes securityCheck although its `unk` byte is 0, so the bottom bit the comment at gcfix.c:68 asks for is not checked |

## Left out

- `main` (gcfix.c:150-206) is not modelled: it opens, reads and writes the file, allocates the buffer and prints usage.
- The `fputs` messages (gcfix.c:97, 138-139) are not modelled. Each failure is a `FixError` value instead: `TooSmall` or `NoMatch`.
- On failure the C leaves the image untouched. A failing `Fix` returns no image at all, so this holds by construction.
- securityCheck writes nothing, and `Check` is a pure predicate, so it cannot modify the image.
- securityFix's `length` parameter is the length of the sequence. The C trusts its caller to pass the real buffer length.
- Reads outside the image are undefined behaviour in C. Here they are preconditions: `CheckReadable`, `FixReadable`, `FieldsInBounds` and `RowInBounds`. `CheckReadable` also demands a nonempty image, because securityCheck reads byte 0 unconditionally. `FixReadable` does not: securityFix reads byte 0 only after its size check (gcfix.c:95-102), so an image it refuses as too small is never read.
- The header fields that neither function reads or writes are not decoded: `size`, `entryBank`, `entryAddress`, `iconBank`, `iconX`, `iconY`, `title` and `pad`. They only occupy their offsets.
- The struct overlay and pointer casts are replaced by reads and writes at explicit offsets. The struct has no padding, because its only `uint16_t` sits at offset 2.
- The `uint32_t` wrap-around of `offset` is not written out. `Table.EntryOffsetInRange` shows that every offset lies in [0x245, 0x8B6F], so the conversion is exact.

=== FILE: bytes.dfy ===
/**
 Bytes as integers in [0, 256) and C's bitwise `^` and `&` on non-negative
 `int` operands.
 */
module Bytes {

  /** An `uint8_t` value. */
  type byte = x: int | 0 <= x < 256

  /** 2 to the power `n`. */
  function Pow2(n: nat): (r: nat)
    ensures r >= 1
  {
    if n == 0 then 1 else 2 * Pow2(n - 1)
  }

  /** The byte case: 2^8 is 256. */
  lemma Pow2Of8()
    ensures Pow2(8) == 256
  {
  }

  /** Bitwise exclusive-or of two non-negative integers, one bit at a time from the least significant. */
  function Xor(a: nat, b: nat): nat
    decreases a + b
  {
    if a == 0 && b == 0 then 0 else 2 * Xor(a / 2, b / 2) + (a + b) % 2
  }

  /** Bitwise and of two non-negative integers, one bit at a time from the least significant. */
  function And(a: nat, b: nat): nat
    decreases a + b
  {
    if a == 0 || b == 0 then 0
    else 2 * And(a / 2, b / 2) + (if a % 2 == 1 && b % 2 == 1 then 1 else 0)
  }

  /** A positive multiple of `m` is at least `m`. */
  lemma MulMono(m: int, k: int)
    requires m > 0 && k >= 1
    ensures m * k >= m
  {
  }

  /** Quotient and remainder are unique. */
  lemma ModUnique(a: int, m: int, t: int, u: int)
    requires m > 0 && 0 <= u < m && a == m * t + u
    ensures a % m == u && a / m == t
  {
    var t', u' := a / m, a % m;
    assert a == m * t' + u';
    if t > t' {
      MulMono(m, t - t');
    } else if t < t' {
      MulMono(m, t' - t);
    }
  }

  /** Halving and parity of `2 * h + r`. */
  lemma Halve(x: int, h: int, r: int)
    requires 0 <= r < 2 && x == 2 * h + r
    ensures x / 2 == h && x % 2 == r
  {
    ModUnique(x, 2, h, r);
  }

  /** The low bit and the halved remainder together make the remainder by twice the modulus. */
  lemma RemainderOfDouble(a: nat, half: nat)
    requires half >= 1
    ensures a % (2 * half) == 2 * ((a / 2) % half) + a % 2
  {
    var q, r := a / 2, a % 2;
    var t, s := q / half, q % half;
    assert q == half * t + s;
    assert a == (2 * half) * t + (2 * s + r);
    ModUnique(a, 2 * half, t, 2 * s + r);
  }

  /** Masking with 2^p - 1 keeps the low p bits: the remainder by 2^p. */
  lemma {:induction false} AndLowMask(a: nat, p: nat)
    ensures And(a, Pow2(p) - 1) == a % Pow2(p)
    decreases p
  {
    if p == 0 {
    } else if a == 0 {
      ModUnique(0, Pow2(p), 0, 0);
    } else {
      var half := Pow2(p - 1);
      var mask := Pow2(p) - 1;
      Halve(mask, half - 1, 1);
      var low := if a % 2 == 1 && mask % 2 == 1 then 1 else 0;
      assert low == a % 2;
      assert And(a, mask) == 2 * And(a / 2, half - 1) + low;
      AndLowMask(a / 2, p - 1);
      RemainderOfDouble(a, half);
      assert Pow2(p) == 2 * half;
      calc {
        And(a, Pow2(p) - 1);
        2 * And(a / 2, half - 1) + a % 2;
        2 * ((a / 2) % half) + a % 2;
        a % (2 * half);
      }
    }
  }

  /** Exclusive-or with zero leaves a value unchanged. */
  lemma {:induction false} XorZero(a: nat)
    ensures Xor(a, 0) == a
    decreases a
  {
    if a != 0 {
      XorZero(a / 2);
    }
  }

  /** Adding an even number does not change parity. */
  lemma EvenShift(h: int, y: int)
    ensures (2 * h + y) % 2 == y % 2
  {
    ModUnique(2 * h + y, 2, h + y / 2, y % 2);
  }

  /** Adding `k` twice does not change parity. */
  lemma ParityTwice(a: int, k: int)
    ensures ((a + k) % 2 + k) % 2 == a % 2
  {
    var t := (a + k) / 2;
    assert a + k == 2 * t + (a + k) % 2;
    assert (a + k) % 2 + k == a + 2 * (k - t);
    ModUnique(a + 2 * (k - t), 2, a / 2 + k - t, a % 2);
  }

  /** Exclusive-or with the same key twice gives back the original value. */
  lemma {:induction false} XorSelfInverse(a: nat, k: nat)
    ensures Xor(Xor(a, k), k) == a
    decreases a + k
  {
    if k == 0 {
      XorZero(a);
    } else {
      var p := (a + k) % 2;
      var h := Xor(a / 2, k / 2);
      var x := Xor(a, k);
      assert x == 2 * h + p;
      Halve(x, h, p);
      XorSelfInverse(a / 2, k / 2);
      assert Xor(h, k / 2) == a / 2;
      ParityTwice(a, k);
      EvenShift(h, p + k);
      assert x + k == 2 * h + (p + k);
      assert (x + k) % 2 == a % 2;
      assert Xor(x, k) == 2 * Xor(x / 2, k / 2) + (x + k) % 2;
      assert a == 2 * (a / 2) + a % 2;
    }
  }

  /** Exclusive-or of two values below 2^p stays below 2^p. */
  lemma {:induction false} XorBelow(a: nat, b: nat, p: nat)
    requires a < Pow2(p) && b < Pow2(p)
    ensures Xor(a, b) < Pow2(p)
    decreases p
  {
    if a == 0 && b == 0 {
    } else {
      assert p > 0;
      XorBelow(a / 2, b / 2, p - 1);
    }
  }

  /** Exclusive-or with a key below 2^p keeps a value at or above 2^p at or above it. */
  lemma {:induction false} XorKeepsHighBits(a: nat, b: nat, p: nat)
    requires b < Pow2(p) <= a
    ensures Xor(a, b) >= Pow2(p)
    decreases p
  {
    if p == 0 {
      XorZero(a);
    } else {
      XorKeepsHighBits(a / 2, b / 2, p - 1);
    }
  }
}

=== FILE: checksum.dfy ===
/**
 The table-driven checksum shared by securityCheck and securityFix: the three
 bytes a table row designates, added up in a `uint8_t` accumulator.
 */
module Checksum {
  import opened Bytes
  import opened Table

  /** Every byte row `i` reads, relative to `base`, lies inside the image. */
  predicate RowInBounds(rom: seq<byte>, base: int, i: RowIndex)
  {
    0 <= base && base + RowReach(i) < |rom|
  }

  /** The image byte entry `j` of row `i` designates. */
  function ByteAt(rom: seq<byte>, base: int, i: RowIndex, j: EntryIndex): byte
    requires RowInBounds(rom, base, i)
  {
    EntryOffsetInRange(i, j);
    rom[base + EntryOffset(i, j)]
  }

  /** The checksum loop from entry `j` on, with the `uint8_t` accumulator wrapping at each step. */
  function Accumulate(rom: seq<byte>, base: int, i: RowIndex, j: nat, accum: byte): byte
    requires RowInBounds(rom, base, i)
    requires j <= 3
    decreases 3 - j
  {
    if j == 3 then accum
    else Accumulate(rom, base, i, j + 1, (accum + ByteAt(rom, base, i, j)) % 256)
  }

  /** The accumulator after the three-step loop over row `i`, starting from 0. */
  function RowSum(rom: seq<byte>, base: int, i: RowIndex): byte
    requires RowInBounds(rom, base, i)
  {
    Accumulate(rom, base, i, 0, 0)
  }

  /** The three designated bytes added as unbounded integers. */
  function ByteSum(rom: seq<byte>, base: int, i: RowIndex): int
    requires RowInBounds(rom, base, i)
  {
    ByteAt(rom, base, i, 0) + ByteAt(rom, base, i, 1) + ByteAt(rom, base, i, 2)
  }

  /** RowInBounds covers each of the three entries, not only the farthest. */
  lemma RowInBoundsCoversEntries(rom: seq<byte>, base: int, i: RowIndex)
    requires RowInBounds(rom, base, i)
    ensures forall j: EntryIndex :: base + MinTableOffset <= base + EntryOffset(i, j) < |rom|
  {
    forall j: EntryIndex
      ensures base + MinTableOffset <= base + EntryOffset(i, j) < |rom|
    {
      EntryOffsetInRange(i, j);
    }
  }

  /** Reducing the running total before adding the next byte does not change the result modulo 256. */
  lemma AddMod(x: int, y: int)
    requires 0 <= x && 0 <= y
    ensures (x % 256 + y) % 256 == (x + y) % 256
  {
    var q := x / 256;
    assert x == 256 * q + x % 256;
    assert x + y == 256 * q + (x % 256 + y);
  }

  /** The 8-bit accumulator ends up holding the integer sum of the three bytes modulo 256. */
  lemma RowSumWraps(rom: seq<byte>, base: int, i: RowIndex)
    requires RowInBounds(rom, base, i)
    ensures RowSum(rom, base, i) == ByteSum(rom, base, i) % 256
  {
    var a: int, b: int, c: int := ByteAt(rom, base, i, 0), ByteAt(rom, base, i, 1), ByteAt(rom, base, i, 2);
    assert RowSum(rom, base, i) == ((a % 256 + b) % 256 + c) % 256;
    AddMod(a, b);
    AddMod(a + b, c);
  }

  /**
   The checksum of a row depends only on the bytes the row designates: two
   images of equal length that agree from `base + 0x245` on give the same sum.
   */
  lemma RowSumReadsOnlyTableBytes(rom: seq<byte>, rom': seq<byte>, base: int, i: RowIndex)
    requires RowInBounds(rom, base, i)
    requires |rom'| == |rom|
    requires forall k :: base + MinTableOffset <= k < |rom| ==> rom'[k] == rom[k]
    ensures RowInBounds(rom', base, i)
    ensures RowSum(rom', base, i) == RowSum(rom, base, i)
  {
    RowInBoundsCoversEntries(rom, base, i);
    assert ByteAt(rom', base, i, 0) == ByteAt(rom, base, i, 0);
    assert ByteAt(rom', base, i, 1) == ByteAt(rom, base, i, 1);
    assert ByteAt(rom', base, i, 2) == ByteAt(rom, base, i, 2);
  }
}

=== FILE: header.dfy ===
/**
 The 32-byte `romHeader` record, decoded from and written to explicit byte
 offsets of the image instead of being overlaid on it as a C struct. Only the
 fields securityCheck reads or securityFix writes are decoded.
 */
module Header {
  import opened Bytes

  /** Where the secondary header lives when byte 0 of the image is 0x00 or 0xFF. */
  const SecondaryBase: int := 0x40000

  /** Field offsets from the start of the header (the struct has no padding). */
  const UnkOffset: int := 0x04
  const SystemOffset: int := 0x05
  const SystemLength: int := 9
  const GameIdOffset: int := 0x1A
  const SecurityCodeOffset: int := 0x1C

  /** Size of the whole record, `pad` included. */
  const HeaderSize: int := 0x20

  /** One past the last header byte that is read or written (`securityCode`). */
  const FieldsEnd: int := SecurityCodeOffset + 1

  /** The system marker "TigerDMGC" as bytes. */
  const SystemTag: seq<byte> := [0x54, 0x69, 0x67, 0x65, 0x72, 0x44, 0x4D, 0x47, 0x43]

  /** The decoded fields that take part in the security scheme. */
  datatype Header = Header(
    unk: byte,
    system: seq<byte>,
    gameId0: byte,
    gameId1: byte,
    securityCode: byte)

  /** The header fields at `base` lie inside the image. */
  predicate FieldsInBounds(rom: seq<byte>, base: int)
  {
    0 <= base && base + FieldsEnd <= |rom|
  }

  /** Reads the header fields at `base`. */
  function Decode(rom: seq<byte>, base: int): (h: Header)
    requires FieldsInBounds(rom, base)
    ensures |h.system| == SystemLength
  {
    Header(
      rom[base + UnkOffset],
      rom[base + SystemOffset .. base + SystemOffset + SystemLength],
      rom[base + GameIdOffset],
      rom[base + GameIdOffset + 1],
      rom[base + SecurityCodeOffset])
  }

  /**
   Decoding reads only header+0x04 through header+0x1C: two images that agree
   on those bytes decode to the same header, whatever else differs.
   */
  lemma DecodeReadsOnlyFields(rom: seq<byte>, rom': seq<byte>, base: int)
    requires FieldsInBounds(rom, base) && FieldsInBounds(rom', base)
    requires forall k :: base + UnkOffset <= k < base + FieldsEnd ==> rom'[k] == rom[k]
    ensures Decode(rom', base) == Decode(rom, base)
  {
    assert rom'[base + SystemOffset .. base + SystemOffset + SystemLength]
        == rom[base + SystemOffset .. base + SystemOffset + SystemLength];
  }

  /**
   Stores `gameId[0]`, `gameId[1]` and `securityCode` of the header at `base`.
   Nothing else in the image changes, and decoding the result gives back the
   old header with exactly those three fields replaced.
   */
  function WriteIds(rom: seq<byte>, base: int, id0: byte, id1: byte, code: byte): (r: seq<byte>)
    requires FieldsInBounds(rom, base)
    ensures |r| == |rom|
    ensures forall k :: 0 <= k < |rom| && !(base + GameIdOffset <= k < base + FieldsEnd) ==> r[k] == rom[k]
    ensures Decode(r, base) == Decode(rom, base).(gameId0 := id0, gameId1 := id1, securityCode := code)
  {
    var r := rom[base + GameIdOffset := id0][base + GameIdOffset + 1 := id1][base + SecurityCodeOffset := code];
    assert r[base + SystemOffset .. base + SystemOffset + SystemLength]
        == rom[base + SystemOffset .. base + SystemOffset + SystemLength];
    r
  }

  /** Writing the ids and code a header already holds leaves the image as it is. */
  lemma WriteIdsOfPresentValues(rom: seq<byte>, base: int)
    requires FieldsInBounds(rom, base)
    ensures var h := Decode(rom, base);
            WriteIds(rom, base, h.gameId0, h.gameId1, h.securityCode) == rom
  {
    var h := Decode(rom, base);
    var r := WriteIds(rom, base, h.gameId0, h.gameId1, h.securityCode);
    assert Decode(r, base) == h;
    assert r[base + GameIdOffset] == rom[base + GameIdOffset];
    assert r[base + GameIdOffset + 1] == rom[base + GameIdOffset + 1];
    assert r[base + SecurityCodeOffset] == rom[base + SecurityCodeOffset];
    assert forall k :: 0 <= k < |rom| ==> r[k] == rom[k];
  }

  /**
   C's `strncmp(a, b, n)` on byte strings: zero when the first `n` bytes agree
   or agree up to a shared NUL, otherwise the difference of the first pair of
   differing bytes read as `unsigned char`.
   */
  function StrNCmp(a: seq<byte>, b: seq<byte>, n: nat): int
    requires n <= |a| && n <= |b|
    decreases n
  {
    if n == 0 then 0
    else if a[0] != b[0] then a[0] - b[0]
    else if a[0] == 0 then 0
    else StrNCmp(a[1..], b[1..], n - 1)
  }

  /** No NUL byte among the first `n` bytes of `s`. */
  predicate NoNul(s: seq<byte>, n: nat)
    requires n <= |s|
  {
    forall k :: 0 <= k < n ==> s[k] != 0
  }

  /**
   When `b` has no NUL in its first `n` bytes, `strncmp` over `n` bytes is an
   exact comparison of those bytes: a NUL in `a` cannot end the comparison early
   without first differing from `b`.
   */
  lemma {:induction false} StrNCmpIsExactMatch(a: seq<byte>, b: seq<byte>, n: nat)
    requires n <= |a| && n <= |b|
    requires NoNul(b, n)
    ensures StrNCmp(a, b, n) == 0 <==> a[..n] == b[..n]
    decreases n
  {
    if n == 0 {
    } else if a[0] != b[0] {
      assert a[..n][0] != b[..n][0];
    } else {
      assert NoNul(b[1..], n - 1);
      StrNCmpIsExactMatch(a[1..], b[1..], n - 1);
      assert a[..n] == [a[0]] + a[1..][..n - 1];
      assert b[..n] == [b[0]] + b[1..][..n - 1];
    }
  }

  /** The marker spells "TigerDMGC" and contains no NUL. */
  lemma SystemTagIsTigerDMGC()
    ensures |SystemTag| == SystemLength
    ensures forall k :: 0 <= k < SystemLength ==> SystemTag[k] == "TigerDMGC"[k] as int
    ensures NoNul(SystemTag, SystemLength)
  {
  }
}

=== FILE: round_trip.dfy ===
/**
 How securityCheck and securityFix fit together: the image securityFix writes
 passes securityCheck when both pick the same header, repairing a repaired
 image changes nothing, and an image securityCheck accepts can be repaired.
 */
module RoundTrip {
  import opened Bytes
  import opened Wrappers
  import opened Table
  import opened Header
  import opened Checksum
  import opened SecurityCheck
  import opened SecurityFix

  /**
   On an image securityFix accepts the size of, both functions look for the
   header in the same place unless the image is exactly 32 KiB and starts with
   0x00 or 0xFF.
   */
  lemma BasesAgree(rom: seq<byte>)
    requires |rom| >= MinRomLength
    ensures FixBase(rom) == HeaderBase(rom) <==>
              |rom| > MinRomLength || !(rom[0] == 0x00 || rom[0] == 0xFF)
  {
  }

  /** `rom'` has the length of `rom` and the same bytes from `from` on. */
  predicate AgreeFrom(rom: seq<byte>, rom': seq<byte>, from: int)
  {
    |rom'| == |rom| && forall k :: 0 <= k < |rom| && from <= k ==> rom'[k] == rom[k]
  }

  /**
   The search reads nothing below the table: an image that agrees with `rom`
   from `base + 0x245` on is just as safe to search and yields the same match.
   */
  lemma {:induction false} SearchReadsOnlyTableBytes(rom: seq<byte>, rom': seq<byte>, base: int, order: seq<RowIndex>)
    requires Increasing(order)
    requires ScanSafe(rom, base, order)
    requires AgreeFrom(rom, rom', base + MinTableOffset)
    ensures ScanSafe(rom', base, order)
    ensures FirstMatch(rom', base, order) == FirstMatch(rom, base, order)
    decreases |order|
  {
    if |order| > 0 {
      RowSumReadsOnlyTableBytes(rom, rom', base, order[0]);
      if RowSum(rom, base, order[0]) != Magic {
        assert Increasing(order[1..]);
        SearchReadsOnlyTableBytes(rom, rom', base, order[1..]);
      }
    }
  }

  /** A repaired image differs from the original only inside the header fields. */
  lemma RepairedAgreesPastHeader(rom: seq<byte>, base: int, exactMinimum: bool, out: seq<byte>)
    requires Repaired(rom, base, exactMinimum, out)
    ensures AgreeFrom(rom, out, base + MinTableOffset)
    ensures out[0] == rom[0]
  {
  }

  /**
   A repaired image passes securityCheck when securityCheck finds the header
   where securityFix wrote it and the marker there reads "TigerDMGC": the
   written game ID exclusive-or 0xA5 gives back the code, the code selects the
   matching row, and no written byte is one the checksum reads.
   */
  lemma RepairedPassesCheck(rom: seq<byte>, base: int, exactMinimum: bool, out: seq<byte>)
    requires Repaired(rom, base, exactMinimum, out)
    requires |rom| > 0 && HeaderBase(rom) == base
    requires Decode(rom, base).system == SystemTag
    ensures CheckReadable(out) && Check(out)
  {
    var m: RowIndex := out[base + SecurityCodeOffset];
    RepairedAgreesPastHeader(rom, base, exactMinimum, out);
    assert HeaderBase(out) == base;
    var h := Decode(out, base);
    assert h.system == Decode(rom, base).system;
    assert h.securityCode == m;
    assert h.gameId0 + h.gameId1 == Xor(m, 0xA5);
    XorSelfInverse(m, 0xA5);
    assert GameIdMatches(h);
    SystemMatchIsExact(h);
    UnkNeverRejects(h);
    SelectedRowIsCodeMod16(h);
    ModUnique(m, 16, 0, m);
    assert SelectedRow(h) == m;
    RowSumReadsOnlyTableBytes(rom, out, base, m);
  }

  /**
   Fix-then-check: when securityFix succeeds, the header it wrote carries the
   "TigerDMGC" marker, and securityCheck looks in the same place, the result
   passes securityCheck.
   */
  lemma FixThenCheck(rom: seq<byte>)
    requires FixReadable(rom)
    requires Fix(rom).Success?
    requires FieldsInBounds(rom, FixBase(rom)) && Decode(rom, FixBase(rom)).system == SystemTag
    requires |rom| > MinRomLength || !(rom[0] == 0x00 || rom[0] == 0xFF)
    ensures CheckReadable(Fix(rom).value) && Check(Fix(rom).value)
  {
    BasesAgree(rom);
    RepairedPassesCheck(rom, FixBase(rom), |rom| == MinRomLength, Fix(rom).value);
  }

  /** There is at most one lowest match. */
  lemma LowestMatchIsUnique(rom: seq<byte>, base: int, exactMinimum: bool, m1: int, m2: int)
    requires LowestMatch(rom, base, exactMinimum, m1)
    requires LowestMatch(rom, base, exactMinimum, m2)
    ensures m1 == m2
  {
  }

  /** The lowest match depends only on the bytes from `base + 0x245` on. */
  lemma LowestMatchReadsOnlyTableBytes(rom: seq<byte>, rom': seq<byte>, base: int, exactMinimum: bool, m: int)
    requires LowestMatch(rom, base, exactMinimum, m)
    requires AgreeFrom(rom, rom', base + MinTableOffset)
    ensures LowestMatch(rom', base, exactMinimum, m)
  {
    RowSumReadsOnlyTableBytes(rom, rom', base, m);
    forall k | 0 <= k < m && !Skipped(exactMinimum, k)
      ensures Rejected(rom', base, k)
    {
      RowSumReadsOnlyTableBytes(rom, rom', base, k);
    }
  }

  /** Two images that keep every byte of `rom` outside the header fields and agree on those fields are equal. */
  lemma SameFieldsSameImage(rom: seq<byte>, base: int, out1: seq<byte>, out2: seq<byte>)
    requires |out1| == |rom| && |out2| == |rom| && FieldsInBounds(rom, base)
    requires forall k :: 0 <= k < |rom| && !(base + GameIdOffset <= k < base + FieldsEnd) ==> out1[k] == rom[k]
    requires forall k :: 0 <= k < |rom| && !(base + GameIdOffset <= k < base + FieldsEnd) ==> out2[k] == rom[k]
    requires out1[base + GameIdOffset] == out2[base + GameIdOffset]
    requires out1[base + GameIdOffset + 1] == out2[base + GameIdOffset + 1]
    requires out1[base + SecurityCodeOffset] == out2[base + SecurityCodeOffset]
    ensures out1 == out2
  {
    forall k | 0 <= k < |out1|
      ensures out1[k] == out2[k]
    {
      if !(base + GameIdOffset <= k < base + FieldsEnd) {
        assert out1[k] == rom[k];
      }
    }
  }

  /** Repaired pins the output down completely: securityFix has one possible result. */
  lemma RepairedIsUnique(rom: seq<byte>, base: int, exactMinimum: bool, out1: seq<byte>, out2: seq<byte>)
    requires Repaired(rom, base, exactMinimum, out1)
    requires Repaired(rom, base, exactMinimum, out2)
    ensures out1 == out2
  {
    LowestMatchIsUnique(rom, base, exactMinimum, out1[base + SecurityCodeOffset], out2[base + SecurityCodeOffset]);
    SameFieldsSameImage(rom, base, out1, out2);
  }

  /** Running securityFix on its own output succeeds and changes nothing. */
  lemma FixIsIdempotent(rom: seq<byte>)
    requires FixReadable(rom)
    requires Fix(rom).Success?
    ensures FixReadable(Fix(rom).value)
    ensures Fix(Fix(rom).value) == Fix(rom)
  {
    var out := Fix(rom).value;
    var base := FixBase(rom);
    var exactMinimum := |rom| == MinRomLength;
    RepairedAgreesPastHeader(rom, base, exactMinimum, out);
    assert FixBase(out) == base;
    SearchFindsLowest(rom, base, exactMinimum);
    SearchReadsOnlyTableBytes(rom, out, base, Visits(exactMinimum, 0));
    assert FixReadable(out);
    var m := out[base + SecurityCodeOffset];
    LowestMatchReadsOnlyTableBytes(rom, out, base, exactMinimum, m);
    assert Repaired(out, base, exactMinimum, out);
    assert !NoRowMatches(out, base, exactMinimum) by {
      assert !Rejected(out, base, m);
    }
    var again := Fix(out);
    assert again.Success?;
    RepairedIsUnique(out, base, exactMinimum, again.value, out);
  }

  /**
   An image securityCheck accepts can be repaired when both functions use the
   same header. On an image of exactly 32 KiB the row securityCheck selected
   cannot be 3 or 6, since those read past the end, so the rows securityFix
   skips never hide the match.
   */
  lemma CheckedImageIsFixable(rom: seq<byte>)
    requires CheckReadable(rom) && Check(rom)
    requires |rom| >= MinRomLength && FixBase(rom) == HeaderBase(rom)
    requires FixReadable(rom)
    ensures |rom| == MinRomLength ==>
              SelectedRow(Decode(rom, HeaderBase(rom))) != 3 && SelectedRow(Decode(rom, HeaderBase(rom))) != 6
    ensures Fix(rom).Success?
  {
    var base := HeaderBase(rom);
    var s := SelectedRow(Decode(rom, base));
    var exactMinimum := |rom| == MinRomLength;
    RowReachesPastMinimum(s);
    assert !Skipped(exactMinimum, s);
    assert Matches(rom, base, s);
  }

  /**
   A 36 KiB image whose byte 0 is 1, whose marker reads "TigerDMGC", and whose
   only other nonzero byte is 0x5A at offset 0x33E4, the first byte row 0 reads.
   */
  function ExampleImage(): seq<byte>
  {
    seq(0x9000, k requires 0 <= k < 0x9000 =>
      if k == 0 then 1
      else if SystemOffset <= k < SystemOffset + SystemLength then SystemTag[k - SystemOffset]
      else if k == 0x33E4 then Magic
      else 0)
  }

  /**
   The hypotheses of FixThenCheck and FixIsIdempotent can be met, and so can
   those of CheckedImageIsFixable for the repaired image: ExampleImage is
   repaired to select row 0 and then passes securityCheck, although its `unk`
   byte is 0 and its bottom bit therefore clear.
   */
  lemma FixThenCheckApplies()
    ensures var rom := ExampleImage();
            && FixReadable(rom)
            && Fix(rom).Success?
            && FieldsInBounds(rom, FixBase(rom)) && Decode(rom, FixBase(rom)).system == SystemTag
            && |rom| > MinRomLength
            && Fix(rom).value[SecurityCodeOffset] == 0
            && CheckReadable(Fix(rom).value) && Check(Fix(rom).value)
            && FixReadable(Fix(rom).value)
            && Decode(Fix(rom).value, 0).unk == 0
  {
    var rom := ExampleImage();
    assert FixBase(rom) == 0;
    LargeImageIsReadable(rom);
    assert Decode(rom, 0).system == SystemTag;
    assert EntryOffset(0, 0) == 0x33E4 && EntryOffset(0, 1) == 0x5757 && EntryOffset(0, 2) == 0x6666;
    assert rom[0x33E4] == Magic && rom[0x5757] == 0 && rom[0x6666] == 0;
    assert RowSum(rom, 0, 0) == Magic;
    assert !Rejected(rom, 0, 0);
    assert !NoRowMatches(rom, 0, false);
    var out := Fix(rom).value;
    assert LowestMatch(rom, 0, false, out[SecurityCodeOffset]);
    assert Matches(rom, 0, 0);
    FixThenCheck(rom);
    FixIsIdempotent(rom);
  }
}

=== FILE: security_check.dfy ===
/**
 securityCheck: locate the header, validate its fields, and accept the image
 when the three bytes selected by the security code add up to 0x5A.
 */
module SecurityCheck {
  import opened Bytes
  import opened Table
  import opened Header
  import opened Checksum

  /** The header sits at 0x40000 when byte 0 is 0x00 or 0xFF, otherwise at 0. */
  function HeaderBase(rom: seq<byte>): int
    requires |rom| > 0
  {
    if rom[0] == 0x00 || rom[0] == 0xFF then SecondaryBase else 0
  }

  /**
   `((gameId[0] + gameId[1]) ^ 0xa5) == securityCode`, in C `int`: the sum of
   the two bytes is not reduced to 8 bits before the exclusive-or.
   */
  predicate GameIdMatches(h: Header)
  {
    Xor(h.gameId0 + h.gameId1, 0xA5) == h.securityCode
  }

  /** `strncmp(system, "TigerDMGC", 9) == 0`. */
  predicate SystemMatches(h: Header)
    requires |h.system| == SystemLength
  {
    StrNCmp(h.system, SystemTag, SystemLength) == 0
  }

  /**
   The test `hdr->unk & 1 == 0`. In C `==` binds tighter than `&`, so the
   mask is the value of `1 == 0`, which is 0.
   */
  predicate UnkRejects(h: Header)
  {
    var mask := if 1 == 0 then 1 else 0;
    And(h.unk, mask) != 0
  }

  /** The row `securityCode & 0xf` selects. */
  function SelectedRow(h: Header): RowIndex
  {
    AndLowMask(h.securityCode, 4);
    And(h.securityCode, 0xF)
  }

  /** `securityCode & 0xf` is the code modulo 16. */
  lemma SelectedRowIsCodeMod16(h: Header)
    ensures SelectedRow(h) == h.securityCode % 16
  {
    AndLowMask(h.securityCode, 4);
    assert Pow2(4) == 16;
  }

  /** The three field tests that precede the checksum all pass. */
  predicate FieldsPass(h: Header)
    requires |h.system| == SystemLength
  {
    GameIdMatches(h) && SystemMatches(h) && !UnkRejects(h)
  }

  /**
   Every byte securityCheck reads lies inside the image: byte 0, the header
   fields, and, only when the field tests pass, the three checksum bytes.
   */
  predicate CheckReadable(rom: seq<byte>)
  {
    && |rom| > 0
    && FieldsInBounds(rom, HeaderBase(rom))
    && (FieldsPass(Decode(rom, HeaderBase(rom))) ==>
          RowInBounds(rom, HeaderBase(rom), SelectedRow(Decode(rom, HeaderBase(rom)))))
  }

  /** securityCheck: the tests in source order, each returning false on failure. */
  predicate Check(rom: seq<byte>)
    requires CheckReadable(rom)
  {
    var base := HeaderBase(rom);
    var h := Decode(rom, base);
    if !GameIdMatches(h) then false
    else if !SystemMatches(h) then false
    else if UnkRejects(h) then false
    else RowSum(rom, base, SelectedRow(h)) == Magic
  }

  /**
   A header that passes the field tests, stated directly: the marker bytes
   are "TigerDMGC", the game-ID bytes sum to at most 255, and the security code
   is that sum exclusive-or 0xA5.
   */
  predicate ValidHeader(h: Header)
  {
    && h.system == SystemTag
    && h.gameId0 + h.gameId1 <= 255
    && h.securityCode == Xor(h.gameId0 + h.gameId1, 0xA5)
  }

  /**
   The game-ID relation holds exactly when the unreduced sum fits in a byte and
   the code is that sum exclusive-or 0xA5; a pair summing past 255 never matches.
   */
  lemma GameIdRelation(h: Header)
    ensures GameIdMatches(h) <==> h.gameId0 + h.gameId1 <= 255 && h.securityCode == Xor(h.gameId0 + h.gameId1, 0xA5)
  {
    Pow2Of8();
    if h.gameId0 + h.gameId1 > 255 {
      XorKeepsHighBits(h.gameId0 + h.gameId1, 0xA5, 8);
    }
  }

  /** The `strncmp` test accepts exactly the nine bytes "TigerDMGC". */
  lemma SystemMatchIsExact(h: Header)
    requires |h.system| == SystemLength
    ensures SystemMatches(h) <==> h.system == SystemTag
  {
    SystemTagIsTigerDMGC();
    StrNCmpIsExactMatch(h.system, SystemTag, SystemLength);
    assert h.system[..SystemLength] == h.system;
    assert SystemTag[..SystemLength] == SystemTag;
  }

  /** The `unk` test never rejects, whatever the byte holds. */
  lemma UnkNeverRejects(h: Header)
    ensures !UnkRejects(h)
  {
  }

  /** The field tests pass exactly for a valid header. */
  lemma FieldsPassIffValid(h: Header)
    requires |h.system| == SystemLength
    ensures FieldsPass(h) <==> ValidHeader(h)
  {
    GameIdRelation(h);
    SystemMatchIsExact(h);
    UnkNeverRejects(h);
  }

  /**
   securityCheck accepts exactly when the header is valid and the three bytes
   of row `securityCode mod 16`, added as integers, are 0x5A modulo 256.
   */
  lemma CheckAcceptsExactly(rom: seq<byte>)
    requires CheckReadable(rom)
    ensures var base := HeaderBase(rom);
            var h := Decode(rom, base);
            Check(rom) <==>
              && ValidHeader(h)
              && RowInBounds(rom, base, h.securityCode % 16)
              && ByteSum(rom, base, h.securityCode % 16) % 256 == Magic
  {
    var base := HeaderBase(rom);
    var h := Decode(rom, base);
    FieldsPassIffValid(h);
    SelectedRowIsCodeMod16(h);
    if FieldsPass(h) {
      RowSumWraps(rom, base, SelectedRow(h));
      assert Check(rom) == (RowSum(rom, base, SelectedRow(h)) == Magic);
    } else {
      assert !Check(rom);
    }
  }

  /** A game-ID pair whose sum exceeds 255 is always rejected. */
  lemma CheckRejectsGameIdOverflow(rom: seq<byte>)
    requires CheckReadable(rom)
    requires Decode(rom, HeaderBase(rom)).gameId0 + Decode(rom, HeaderBase(rom)).gameId1 > 255
    ensures !Check(rom)
  {
    GameIdRelation(Decode(rom, HeaderBase(rom)));
  }

  /** The `unk` byte never influences the result: overwriting it leaves the verdict unchanged. */
  lemma CheckIgnoresUnk(rom: seq<byte>, v: byte)
    requires CheckReadable(rom)
    ensures var rom' := rom[HeaderBase(rom) + UnkOffset := v];
            CheckReadable(rom') && Check(rom') == Check(rom)
  {
    var base := HeaderBase(rom);
    var rom' := rom[base + UnkOffset := v];
    assert HeaderBase(rom') == base;
    var h, h' := Decode(rom, base), Decode(rom', base);
    assert h'.system == h.system;
    assert h'.gameId0 == h.gameId0 && h'.gameId1 == h.gameId1 && h'.securityCode == h.securityCode;
    UnkNeverRejects(h);
    UnkNeverRejects(h');
    assert GameIdMatches(h') == GameIdMatches(h);
    assert SystemMatches(h') == SystemMatches(h);
    assert SelectedRow(h') == SelectedRow(h);
    if FieldsPass(h) {
      RowSumReadsOnlyTableBytes(rom, rom', base, SelectedRow(h));
    }
  }
}

=== FILE: security_fix.dfy ===
/**
 securityFix: search the table, in ascending row order, for the first row
 whose three bytes already add up to 0x5A, and rewrite the header's game ID
 and security code so that they select that row.
 */
module SecurityFix {
  import opened Bytes
  import opened Wrappers
  import opened Table
  import opened Header
  import opened Checksum

  /** Why securityFix gave up; in both cases the image is left as it was. */
  datatype FixError =
    | TooSmall  // "ROM too small!"
    | NoMatch   // "No checksum match found!"

  /**
   The header base securityFix uses: 0x40000 when byte 0 is 0x00 or 0xFF and
   the image is longer than 32 KiB, otherwise 0.
   */
  function FixBase(rom: seq<byte>): int
    requires |rom| > 0
  {
    if (rom[0] == 0x00 || rom[0] == 0xFF) && |rom| > MinRomLength then SecondaryBase else 0
  }

  /** The rows an image of exactly 32 KiB never evaluates: 3 and 6. */
  predicate Skipped(exactMinimum: bool, i: int)
  {
    exactMinimum && (i == 3 || i == 6)
  }

  /**
   The rows the search loop evaluates from `i` on, in order. On an image of
   exactly 32 KiB the loop steps over index 3 or 6 by incrementing `i` once
   more before reading the row. The step condition is `Skipped` written out,
   which keeps the unfolded visit order free of `Skipped` terms that would
   set off the quantifiers of LowestMatch and NoRowMatches;
   VisitsAreUnskippedRows relates the two.
   */
  function Visits(exactMinimum: bool, i: nat): seq<RowIndex>
    decreases 16 - i
  {
    if i >= 16 then []
    else
      var j := if exactMinimum && (i == 3 || i == 6) then i + 1 else i;
      [j] + Visits(exactMinimum, j + 1)
  }

  /** Strictly ascending. */
  predicate Increasing(order: seq<RowIndex>)
  {
    forall a, b :: 0 <= a < b < |order| ==> order[a] < order[b]
  }

  /** Row `i` is readable and its bytes add up to 0x5A. */
  predicate Matches(rom: seq<byte>, base: int, i: RowIndex)
  {
    RowInBounds(rom, base, i) && RowSum(rom, base, i) == Magic
  }

  /** Row `i` is readable and its bytes do not add up to 0x5A. */
  predicate Rejected(rom: seq<byte>, base: int, i: RowIndex)
  {
    RowInBounds(rom, base, i) && RowSum(rom, base, i) != Magic
  }

  /**
   Every row the search reads before it stops lies inside the image: each
   evaluated row is in bounds, and the next one is read only if it did not match.
   */
  predicate ScanSafe(rom: seq<byte>, base: int, order: seq<RowIndex>)
    decreases |order|
  {
    |order| == 0 ||
    (RowInBounds(rom, base, order[0]) &&
     (RowSum(rom, base, order[0]) != Magic ==> ScanSafe(rom, base, order[1..])))
  }

  /** The search loop with its `break`: the first row of `order` whose sum is 0x5A. */
  function FirstMatch(rom: seq<byte>, base: int, order: seq<RowIndex>): (r: Option<RowIndex>)
    requires Increasing(order)
    requires ScanSafe(rom, base, order)
    ensures r.Some? ==> r.value in order && Matches(rom, base, r.value)
    ensures r.Some? ==> forall k :: k in order && k < r.value ==> Rejected(rom, base, k)
    ensures r.None? ==> forall k :: k in order ==> Rejected(rom, base, k)
    decreases |order|
  {
    if |order| == 0 then None
    else if RowSum(rom, base, order[0]) == Magic then Some(order[0])
    else
      assert Increasing(order[1..]);
      FirstMatch(rom, base, order[1..])
  }

  /** The loop evaluates exactly the rows that are not skipped, each once, in ascending order. */
  lemma {:induction false} VisitsAreUnskippedRows(exactMinimum: bool, i: nat)
    ensures Increasing(Visits(exactMinimum, i))
    ensures forall k :: k in Visits(exactMinimum, i) <==> i <= k < 16 && !Skipped(exactMinimum, k)
    decreases 16 - i
  {
    if i < 16 {
      var j := if Skipped(exactMinimum, i) then i + 1 else i;
      VisitsAreUnskippedRows(exactMinimum, j + 1);
      var rest := Visits(exactMinimum, j + 1);
      assert Visits(exactMinimum, i) == [j] + rest;
      forall a, b | 0 <= a < b < |[j] + rest|
        ensures ([j] + rest)[a] < ([j] + rest)[b]
      {
        if a == 0 {
          assert ([j] + rest)[b] == rest[b - 1];
          assert rest[b - 1] in rest;
        }
      }
    }
  }

  /**
   The lowest row that is evaluated and matches; every evaluated row below it
   was read and did not match.
   */
  predicate LowestMatch(rom: seq<byte>, base: int, exactMinimum: bool, m: int)
  {
    && 0 <= m < 16
    && !Skipped(exactMinimum, m)
    && Matches(rom, base, m)
    && forall k :: 0 <= k < m && !Skipped(exactMinimum, k) ==> Rejected(rom, base, k)
  }

  /** No evaluated row matches, and all of them were read. */
  predicate NoRowMatches(rom: seq<byte>, base: int, exactMinimum: bool)
  {
    forall k :: 0 <= k < 16 && !Skipped(exactMinimum, k) ==> Rejected(rom, base, k)
  }

  /**
   Every byte securityFix reads lies inside the image: byte 0, and the
   checksum bytes of each row the search evaluates before it stops.
   */
  predicate FixReadable(rom: seq<byte>)
  {
    |rom| >= MinRomLength ==> ScanSafe(rom, FixBase(rom), Visits(|rom| == MinRomLength, 0))
  }

  /**
   `out` is `rom` with only the game ID and security code at `base` rewritten:
   the code is the lowest matching row `m`, `gameId[0]` is `m ^ 0xA5` and
   `gameId[1]` is 0.
   */
  predicate Repaired(rom: seq<byte>, base: int, exactMinimum: bool, out: seq<byte>)
  {
    && |out| == |rom|
    && FieldsInBounds(rom, base)
    && (forall k :: 0 <= k < |rom| && !(base + GameIdOffset <= k < base + FieldsEnd) ==> out[k] == rom[k])
    && LowestMatch(rom, base, exactMinimum, out[base + SecurityCodeOffset])
    && out[base + GameIdOffset] == Xor(out[base + SecurityCodeOffset], 0xA5)
    && out[base + GameIdOffset + 1] == 0
  }

  /** A row that is in bounds starts past the header fields, so those fields are in bounds too. */
  lemma RowInBoundsCoversHeader(rom: seq<byte>, base: int, i: RowIndex)
    requires RowInBounds(rom, base, i)
    ensures FieldsInBounds(rom, base)
  {
    RowInBoundsCoversEntries(rom, base, i);
  }

  /** The byte securityFix stores for `gameId[0]`: `match ^ 0xa5` truncated to `uint8_t`. */
  function GameIdFor(m: RowIndex): byte
  {
    Xor(m, 0xA5) % 256
  }

  /** For every row the stored byte is `m ^ 0xA5` itself: the truncation never bites. */
  lemma GameIdForFits(m: RowIndex)
    ensures GameIdFor(m) == Xor(m, 0xA5)
  {
    Pow2Of8();
    XorBelow(m, 0xA5, 8);
    ModUnique(Xor(m, 0xA5), 256, 0, Xor(m, 0xA5));
  }

  /** Searching the loop's visit order finds the lowest evaluated match, or proves there is none. */
  lemma SearchFindsLowest(rom: seq<byte>, base: int, exactMinimum: bool)
    requires ScanSafe(rom, base, Visits(exactMinimum, 0))
    ensures Increasing(Visits(exactMinimum, 0))
    ensures match FirstMatch(rom, base, Visits(exactMinimum, 0))
            case Some(m) => LowestMatch(rom, base, exactMinimum, m)
            case None => NoRowMatches(rom, base, exactMinimum)
  {
    VisitsAreUnskippedRows(exactMinimum, 0);
  }

  /** Writing the ids for the lowest match `m` yields a repaired image. */
  lemma WritingMatchRepairs(rom: seq<byte>, base: int, exactMinimum: bool, m: RowIndex)
    requires LowestMatch(rom, base, exactMinimum, m)
    ensures FieldsInBounds(rom, base)
    ensures Repaired(rom, base, exactMinimum, WriteIds(rom, base, GameIdFor(m), 0, m))
  {
    RowInBoundsCoversHeader(rom, base, m);
    GameIdForFits(m);
    var out := WriteIds(rom, base, GameIdFor(m), 0, m);
    assert Decode(out, base).securityCode == m;
    assert Decode(out, base).gameId0 == Xor(m, 0xA5);
    assert Decode(out, base).gameId1 == 0;
  }

  /**
   securityFix. Images shorter than 32 KiB are refused; otherwise the rows are
   searched in ascending order, and the first match is written to the header.
   */
  function Fix(rom: seq<byte>): (r: Result<seq<byte>, FixError>)
    requires FixReadable(rom)
    ensures r == Failure(TooSmall) <==> |rom| < MinRomLength
    ensures r == Failure(NoMatch) <==>
              |rom| >= MinRomLength && NoRowMatches(rom, FixBase(rom), |rom| == MinRomLength)
    ensures r.Success? ==>
              |rom| >= MinRomLength && Repaired(rom, FixBase(rom), |rom| == MinRomLength, r.value)
  {
    if |rom| < MinRomLength then Failure(TooSmall)
    else
      var exactMinimum := |rom| == MinRomLength;
      var base := FixBase(rom);
      SearchFindsLowest(rom, base, exactMinimum);
      match FirstMatch(rom, base, Visits(exactMinimum, 0))
      case None => Failure(NoMatch)
      case Some(m) =>
        WritingMatchRepairs(rom, base, exactMinimum, m);
        Success(WriteIds(rom, base, GameIdFor(m), 0, m))
  }

  /** A search over rows that are all in bounds reads only in-bounds bytes. */
  lemma {:induction false} ScanSafeWhenRowsInBounds(rom: seq<byte>, base: int, order: seq<RowIndex>)
    requires forall k :: k in order ==> RowInBounds(rom, base, k)
    ensures ScanSafe(rom, base, order)
    decreases |order|
  {
    if |order| > 0 {
      assert order[0] in order;
      assert forall k :: k in order[1..] ==> k in order;
      ScanSafeWhenRowsInBounds(rom, base, order[1..]);
    }
  }

  /**
   Skipping rows 3 and 6 is what makes a 32 KiB image safe to search: every
   other row reads below 0x8000.
   */
  lemma ExactMinimumIsReadable(rom: seq<byte>)
    requires |rom| == MinRomLength
    ensures FixReadable(rom)
  {
    VisitsAreUnskippedRows(true, 0);
    forall k | k in Visits(true, 0)
      ensures RowInBounds(rom, 0, k)
    {
      RowReachesPastMinimum(k);
    }
    ScanSafeWhenRowsInBounds(rom, 0, Visits(true, 0));
  }

  /** An image that reaches past every table offset from its header base is safe to search. */
  lemma LargeImageIsReadable(rom: seq<byte>)
    requires |rom| > 0
    requires FixBase(rom) + MaxTableOffset < |rom|
    ensures FixReadable(rom)
  {
    var order := Visits(false, 0);
    forall k | k in order
      ensures RowInBounds(rom, FixBase(rom), k)
    {
      EntryOffsetInRange(k, 0);
      EntryOffsetInRange(k, 1);
      EntryOffsetInRange(k, 2);
    }
    ScanSafeWhenRowsInBounds(rom, FixBase(rom), order);
  }

  /** An image of exactly 32 KiB always has its header at 0, whatever byte 0 holds. */
  lemma ExactMinimumUsesPrimaryHeader(rom: seq<byte>)
    requires |rom| == MinRomLength
    ensures FixBase(rom) == 0
  {
  }
}

=== FILE: table.dfy ===
/**
 The constant security table of gcfix.c and the arithmetic that turns one of
 its (bank, address) triples into a flat offset into the ROM image.
 */
module Table {
  import opened Bytes

  /** Bytes per ROM bank (BANK_LENGTH). */
  const BankLength: int := 0x2000

  /** CPU address at which a switched bank is mapped (BANK_LOAD_ADDRESS). */
  const BankLoadAddress: int := 0x6000

  /** The three selected bytes must add up to this value, modulo 256. */
  const Magic: int := 0x5A

  /** Smallest and largest offset any table entry produces. */
  const MinTableOffset: int := 0x245
  const MaxTableOffset: int := 0x8B6F

  /** The shortest image securityFix accepts (32 KiB). */
  const MinRomLength: int := 0x8000

  /** A row of the table, selected by the low nibble of the security code. */
  type RowIndex = i: int | 0 <= i < 16

  /** One of the three entries of a row. */
  type EntryIndex = j: int | 0 <= j < 3

  /** A (bank, address-high, address-low) triple. */
  datatype Entry = Entry(bank: byte, hi: byte, lo: byte)

  /** The three triples of one row, in the order the checksum reads them. */
  datatype Row = Row(e0: Entry, e1: Entry, e2: Entry)
  {
    function At(j: EntryIndex): Entry
    {
      match j
      case 0 => e0
      case 1 => e1
      case 2 => e2
    }
  }

  /** securityTable: 16 rows of three (bank, hi, lo) triples, indexed by row. */
  function SecurityTable(i: RowIndex): Row
  {
    match i
    case 0 => Row(Entry(0x01, 0x73, 0xE4), Entry(0x02, 0x77, 0x57), Entry(0x03, 0x66, 0x66))
    case 1 => Row(Entry(0x00, 0x72, 0x45), Entry(0x01, 0x75, 0x05), Entry(0x02, 0x67, 0x07))
    case 2 => Row(Entry(0x01, 0x62, 0x67), Entry(0x03, 0x63, 0x5A), Entry(0x03, 0x7A, 0xBC))
    case 3 => Row(Entry(0x00, 0x7A, 0xC2), Entry(0x01, 0x76, 0xBB), Entry(0x04, 0x64, 0xE3))
    case 4 => Row(Entry(0x02, 0x6F, 0x27), Entry(0x02, 0x76, 0xE1), Entry(0x03, 0x7F, 0xDB))
    case 5 => Row(Entry(0x00, 0x68, 0xA7), Entry(0x03, 0x6B, 0x41), Entry(0x02, 0x76, 0x73))
    case 6 => Row(Entry(0x00, 0x62, 0x45), Entry(0x01, 0x73, 0xBE), Entry(0x04, 0x6B, 0x6F))
    case 7 => Row(Entry(0x00, 0x77, 0x43), Entry(0x02, 0x7F, 0x7E), Entry(0x03, 0x63, 0x76))
    case 8 => Row(Entry(0x01, 0x68, 0x75), Entry(0x01, 0x77, 0x64), Entry(0x02, 0x6F, 0xD0))
    case 9 => Row(Entry(0x01, 0x63, 0x0F), Entry(0x02, 0x64, 0xE7), Entry(0x03, 0x67, 0xB1))
    case 10 => Row(Entry(0x01, 0x62, 0x09), Entry(0x01, 0x74, 0xF1), Entry(0x01, 0x7A, 0xA8))
    case 11 => Row(Entry(0x01, 0x60, 0x0D), Entry(0x01, 0x73, 0xC9), Entry(0x03, 0x63, 0xEC))
    case 12 => Row(Entry(0x01, 0x79, 0xA7), Entry(0x02, 0x7F, 0x4B), Entry(0x03, 0x60, 0x78))
    case 13 => Row(Entry(0x00, 0x73, 0x27), Entry(0x01, 0x62, 0x4C), Entry(0x03, 0x70, 0x86))
    case 14 => Row(Entry(0x01, 0x69, 0x03), Entry(0x02, 0x6F, 0x72), Entry(0x03, 0x66, 0x00))
    case 15 => Row(Entry(0x00, 0x71, 0x08), Entry(0x01, 0x7A, 0xBB), Entry(0x02, 0x79, 0x0A))
  }

  /**
   The 16-bit CPU address `(hi << 8) | lo`: shifting `hi` left by 8 clears the
   low byte, so the `|` with a byte is an addition (ShiftOrIsConcatenation).
   */
  function Address(hi: byte, lo: byte): int
  {
    hi * 256 + lo
  }

  /**
   The offset an entry designates, relative to the header base:
   `bank * BANK_LENGTH + (((hi << 8) | lo) - BANK_LOAD_ADDRESS)`, evaluated in
   C `int`. The source stores it in a `uint32_t`; for the table's entries that
   conversion changes nothing (EntryOffsetInRange).
   */
  function Offset(e: Entry): int
  {
    e.bank * BankLength + (Address(e.hi, e.lo) - BankLoadAddress)
  }

  /** The offset of entry `j` of row `i`. */
  function EntryOffset(i: RowIndex, j: EntryIndex): int
  {
    Offset(SecurityTable(i).At(j))
  }

  /** The largest offset row `i` reads. */
  function RowReach(i: RowIndex): int
  {
    var a, b, c := EntryOffset(i, 0), EntryOffset(i, 1), EntryOffset(i, 2);
    if a >= b && a >= c then a else if b >= c then b else c
  }

  /** Address agrees with the bitwise `(hi << 8) | lo` on 16-bit values. */
  lemma ShiftOrIsConcatenation(hi: bv8, lo: bv8)
    ensures ((hi as bv16 << 8) | lo as bv16) as int == Address(hi as int, lo as int)
  {
  }

  /**
   Every entry of the table lies in [0x245, 0x8B6F]: never negative, so the
   `uint32_t` store is exact, and never inside the 0x20-byte header.
   */
  lemma EntryOffsetInRange(i: RowIndex, j: EntryIndex)
    ensures MinTableOffset <= EntryOffset(i, j) <= MaxTableOffset
  {
  }

  /** The bounds 0x245 and 0x8B6F are attained, so the range is tight. */
  lemma OffsetRangeIsTight()
    ensures EntryOffset(6, 0) == MinTableOffset
    ensures EntryOffset(6, 2) == MaxTableOffset
  {
  }

  /** Rows 3 and 6 are exactly the rows that read at or beyond 0x8000. */
  lemma RowReachesPastMinimum(i: RowIndex)
    ensures RowReach(i) >= MinRomLength <==> (i == 3 || i == 6)
  {
  }
}

=== FILE: wrappers.dfy ===
/** Failure-carrying result types used by the repair operation. */
module Wrappers {

  /** An optional value: the first matching table row, when there is one. */
  datatype Option<+T> = None | Some(value: T)

  /** Either a value or the reason the operation gave up. */
  datatype Result<+R, +E> = Success(value: R) | Failure(error: E)
}
